=== FILE: README.md ===
# AsM credentials and sessions in Dafny

This project models the credential and session core of AsM, an ASP.NET Core
web application. Accounts live in a Cassandra store, and a signed-in user
carries a cookie-held claims identity.

The model covers these parts:

- **Password blob** (`PasswordBlob`, `AuthService`). `SetPasswordAsync` stores the base64 text of a
  36-byte blob: a 16-byte salt followed by 20 bytes of PBKDF2 output.
  `CheckPasswordAsync` copies the salt, derives the key again and compares bytes 16..35.
  The loop exits at the first difference. Every exception it can raise becomes `false`.
- **Sign-in** (`AuthService.LookupAccount`, `AuthService.Authenticate`, `SignIn`). An account
  string containing `@` is looked up by email, anything else by username. The lookup is
  `SingleOrDefault`, so two rows holding the same value give no user. "No such account" and
  "wrong password" give the same `null` and the same "Incorrect credentials." response.
  A successful sign-in issues three claims: email, name and `Guid`.
- **Settings and account creation** (`UserService`). A setting change checks the setting type, then
  availability for usernames and emails, then writes. Account creation checks availability, gives the
  user an id, inserts the row and then sets the password. If the password write fails, the row is
  not removed.
- **Claim rotation** (`Session.Rotate`, `ChangeSettings`). After a successful write, the settings
  endpoint drops every claim of the changed type, keeps the rest in order and appends one new claim.
- **Verification codes** (`EmailService`, `AuthService.VerifyEmail`). Each random byte picks one
  character of `a-z0-9` by `b % 36`. The code is stored per email address, and a later verification
  accepts exactly a non-empty stored code.

The store (`AccountStore`) is a value with three maps and a set of failing operations:

- `users`: id to row;
- `credentials`: id to hash text;
- `email_verification`: email to code;
- `faults`: the store operations that fail during one request.

A failing operation writes nothing. A failing read gives null, and a failing write or existence check
gives false. The existence checks therefore fail open: a failing username count reports the name as
free. Cassandra `INSERT` and `UPDATE` are upserts.

The following are parameters rather than modelled code:

- the key derivation function `kdf` (PBKDF2 with HMAC-SHA512 and 10000 iterations, section 5.2 of RFC 8018);
- the 16 salt bytes;
- the random bytes behind a verification code;
- the id `Guid.NewGuid()` returns;
- whether SMTP delivery succeeded.

Behaviours of the code that differ from the usual account-system design, kept as written:

- Uniqueness checks do not exempt the requesting user's own current value. `UserService.KeepingOwnUsernameRefused` and `UserService.KeepingOwnEmailRefused` state this.
- The password comparison is not constant-time. It returns at the first differing byte.
- Claims are not keyed by type. The rebuild filters by exact, case-sensitive type and appends. The `Guid` lookup `FindFirst` ignores case.
- A blob shorter than 36 bytes is not reported as a separate condition, but it always gives `false`: an empty one at the null-or-empty test, otherwise either through a caught exception or at the first differing byte.

## Model

| member | source | states |
|---|---|---|
| Guids.Parse | AsM/Api/ChangeSettings.cs:59 | `new Guid(text)`, restricted to the plain hyphenated 8-4-4-4-12 form, succeeds on 36 characters with hyphens at 8, 13, 18 and 23 and hex digits elsewhere, and on no other text; each digit is read case-insensitively |
| Guids.ParseFormat | AsM/Api/SignIn.cs:52 | the id text written into the `Guid` claim (`Guids.Format`, the hyphenated lower-case form of `Guid.ToString()`) parses back to the same id |
| Guids.FormatInjective | AsM/Api/SignIn.cs:52 | two different ids never give the same claim text |
| Models.ParseSetting | AsM/Services/UserService.cs:112-116 | a setting type is accepted exactly when it is "Displayname", "Username" or "Email" |
| AccountStore.SetColumn | AsM/Data/CassandraDbContext.cs:199-215 | an update writes the chosen column and keeps the other columns and the date of birth |
| AccountStore.SelectSingle | AsM/Data/CassandraDbContext.cs:136-169 | a lookup by username or email returns a user exactly when the read works and exactly one row holds the value; the user returned is that row and has an id |
| AccountStore.Exists | AsM/Data/CassandraDbContext.cs:226-261 | the count-based existence check is true exactly when the count works and some row holds the value; a failing count answers false |
| AccountStore.CreateUser | AsM/Data/CassandraDbContext.cs:172-188 | an insert succeeds exactly when it works and the user has an id; the row then reads back as the same user, no other row changes, and a failure writes nothing |
| AccountStore.UpdateUserSetting | AsM/Data/CassandraDbContext.cs:191-223 | an update succeeds exactly when it works and the type is one of the three; it sets that column of the user's row (creating the row if absent) and changes no other row or table |
| AccountStore.SetPasswordHash | AsM/Data/CassandraDbContext.cs:283-299 | a hash write replaces that id's hash only, or changes nothing when it fails |
| AccountStore.StoreEmailVerificationCode | AsM/Data/CassandraDbContext.cs:302-318 | a code write replaces that email's code only, or changes nothing when it fails |
| AccountStore.HashReadAfterWrite | AsM/Data/CassandraDbContext.cs:264-299 | a stored hash reads back unchanged through `GetPasswordHash` while the read works |
| AccountStore.CodeReadAfterWrite | AsM/Data/CassandraDbContext.cs:302-337 | a stored code reads back unchanged through `GetEmailVerificationCode` while the read works |
| AccountStore.InsertThenSelect | AsM/Data/CassandraDbContext.cs:136-188 | after an insert, the user is found by a username or email no other row holds |
| PasswordBlob.MakeBlob | AsM/Services/AuthService.cs:107-117 | the stored blob is 36 bytes: the salt, then the key derived from the password and that salt; the password it was made from matches it |
| PasswordBlob.CompareFrom | AsM/Services/AuthService.cs:84-92 | the byte loop answers true exactly when bytes 16+i..35 equal the derived key from i on; it throws only when the blob is shorter than 36 bytes, and answers false only at an actual difference |
| PasswordBlob.Verify | AsM/Services/AuthService.cs:76-92 | once decoded, a blob is accepted exactly when it has at least 36 bytes and bytes 16..35 are the key derived from the password and bytes 0..15; otherwise it is rejected or throws, and throwing implies fewer than 36 bytes |
| PasswordBlob.TrailingBytesIgnored | AsM/Services/AuthService.cs:84-92 | bytes after index 35 do not affect the check |
| PasswordBlob.MakeBlobAccepts | AsM/Services/AuthService.cs:76-92 | a blob made for one password accepts another exactly when both derive the same key under its salt |
| AuthService.CheckPassword | AsM/Services/AuthService.cs:60-99 | the check is true exactly when the hash read works, a hash is stored, it is valid base64 and the blob matches; a null or empty hash, text that is not base64 and a short blob all give false |
| AuthService.SetPassword | AsM/Services/AuthService.cs:102-128 | a successful set stores the base64 of a 36-byte blob that starts with the salt and matches the password; no other credential changes; a failed write changes nothing |
| AuthService.SetThenCheck | AsM/Services/AuthService.cs:60-128 | after a set, the same password passes the check, and another password passes exactly when it derives the same key under the new salt |
| AuthService.LookupAccount | AsM/Services/AuthService.cs:35-40 | an account string with '@' goes to the email lookup and any other to the username lookup; a found user is the only holder of that value |
| AuthService.Authenticate | AsM/Services/AuthService.cs:30-57 | a user comes back exactly when the lookup finds a user with an id whose password checks; it is that user; no lookup result means null |
| AuthService.UnknownAccountIgnoresCredentials | AsM/Services/AuthService.cs:42-45 | when the lookup finds nobody, neither the credentials table nor the key derivation affects the null answer |
| AuthService.AuthenticateByUsername | AsM/Services/AuthService.cs:30-57 | the sole holder of a username without '@' is signed in exactly when its password checks |
| AuthService.AuthenticateByEmail | AsM/Services/AuthService.cs:30-57 | the sole holder of an email address is signed in exactly when its password checks |
| AuthService.VerifyEmail | AsM/Services/AuthService.cs:149-164 | verification is true exactly when the read works, a code is stored for the email, it is non-empty and equals the supplied code |
| AuthService.SendVerificationEmail | AsM/Services/AuthService.cs:131-146 | the result is the delivery outcome; when the write works the email's code is an 8-character code built from the random bytes, every other address's code and every other table is kept, and verifying with it succeeds |
| AuthService.VerifyAfterSend | AsM/Services/AuthService.cs:149-164 | after a code is stored, verification accepts exactly that code, and nothing when the code is empty |
| EmailService.GenerateVerificationCode | AsM/Services/EmailService.cs:103-118 | the code has `length` characters (8 by default), each `chars[bytes[i] % 36]` and so in `a-z0-9` |
| EmailService.Indices | AsM/Services/EmailService.cs:112-115 | for any code over an alphabet of at most 256 characters, the bytes it returns make the generator's loop rebuild exactly that code |
| EmailService.EveryCodeReachable | AsM/Services/EmailService.cs:105-115 | every string over `a-z0-9` is the code of some random bytes |
| EmailService.SendVerificationEmail | AsM/Services/EmailService.cs:75-100 | the code is stored for the address unless the write fails; the store's answer is ignored and the result is the delivery outcome |
| UserService.IsUsernameAvailable | AsM/Services/UserService.cs:142-153 | a username is available exactly when no row holds it or the count fails |
| UserService.IsEmailAvailable | AsM/Services/UserService.cs:156-167 | an email is available exactly when no row holds it or the count fails |
| UserService.UpdateUserSetting | AsM/Services/UserService.cs:107-139 | a change succeeds exactly when the type is one of the three, a new username or email is held by no account (or its count failed) and the store's update works; when neither check refuses, the result is the store's update; an unknown type, a taken username or a taken email gives false with no write; after a success no other row holds the new username or email unless the count failed |
| UserService.ChangeToFreeValue | AsM/Services/UserService.cs:119-132 | on a working store, a username or email change to a value no account holds succeeds and writes that column of the user's row, leaving every other row alone |
| UserService.KeepingOwnUsernameRefused | AsM/Services/UserService.cs:119-123 | setting a username to the one the user already holds is refused |
| UserService.KeepingOwnEmailRefused | AsM/Services/UserService.cs:125-129 | setting an email to the one the user already holds is refused |
| UserService.UpdateKeepsUnique | AsM/Services/UserService.cs:107-139 | with working counts, an update keeps usernames and emails unique across rows |
| UserService.WithId | AsM/Services/UserService.cs:76-79 | a user without an id gets the fresh id; one with an id keeps it; nothing else changes |
| UserService.CreateUser | AsM/Services/UserService.cs:58-104 | a taken username or email gives false with no write; a failed insert writes nothing and sets no password; once both are free the caller's user carries its id or the fresh one, even when a write fails; success exactly when both are free and both writes work, leaving one new row and exactly the blob `Base64(salt ++ KDF(password, salt))`, which the password matches, with every other row, hash and verification code as it was; a failed password write leaves only the new row in place |
| UserService.CreatedUserSignsIn | AsM/Services/UserService.cs:58-104 | a created account signs in with its username and password |
| UserService.CreateKeepsUnique | AsM/Services/UserService.cs:58-104 | with working counts, creation keeps usernames and emails unique across rows |
| Session.FindFirst | AsM/Api/ChangeSettings.cs:53 | the claim lookup returns the first claim whose type matches ignoring case, and none only when no claim matches |
| Session.Without | AsM/Api/ChangeSettings.cs:70 | a claim is kept exactly when its type differs, case-sensitively, and the result holds as many claims as the input has claims of other types; with `WithoutKeepsOrder` and `FilterDetermined`, it is exactly the order-keeping selection of those claims |
| Session.WithoutKeepsOrder | AsM/Api/ChangeSettings.cs:70 | the surviving claims keep their original order |
| Session.SubseqOfWithout | AsM/Api/ChangeSettings.cs:70 | every order-keeping selection that avoids the filtered type is a selection from the filter's result |
| Session.FilterDetermined | AsM/Api/ChangeSettings.cs:70 | any list taken from the claims in order, without the filtered type, and as long as the number of other claims, is the filter's result: the filter is the only such list |
| Session.OfTypeWithout | AsM/Api/ChangeSettings.cs:70 | after the filter, each other type's claims are the same list as before, and the filtered type has none |
| Session.OfType | AsM/Api/ChangeSettings.cs:70 | the claims of one type are exactly the members of the list with that type |
| Session.Rotate | AsM/Api/ChangeSettings.cs:69-74 | the rebuilt list is the filtered old list, in the old order, followed by the new claim; it holds exactly one claim of the changed type, keeps every other type's claims, and adds no other claim |
| Session.RotateIdempotent | AsM/Api/ChangeSettings.cs:69-74 | rotating twice with the same type and value equals rotating once |
| Session.RotateLastWins | AsM/Api/ChangeSettings.cs:69-74 | a second rotation of the same type replaces the first entirely |
| Session.RotateCommutesPerType | AsM/Api/ChangeSettings.cs:69-74 | rotations of two different types give the same claims of every type in either order |
| Session.RotateKeepsFindFirst | AsM/Api/ChangeSettings.cs:53-76 | rotating a type other than `Guid` keeps the claim that identifies the user |
| SignIn.SignInPost | AsM/Api/SignIn.cs:33-68 | success exactly when authentication returns a user; any failure is the one "Incorrect credentials." response with the cookie untouched; on success the cookie scheme holds exactly the email, name and `Guid` claims built by `SignIn.IssueClaims`, and that `Guid` parses back to the user's id |
| SignIn.FailuresLookAlike | AsM/Api/SignIn.cs:38-46 | an unknown account and a wrong password give the same response |
| SignIn.SignOutPost | AsM/Api/SignIn.cs:72-76 | sign-out answers 200 and leaves an anonymous request with no `Guid` claim |
| ChangeSettings.ClaimTypeFor | AsM/Api/ChangeSettings.cs:36-50 | "Displayname", "Username" and "Email" map to the display-name, name and email claim types; nothing else maps; no result is the `Guid` type |
| ChangeSettings.ChangeSettingsPost | AsM/Api/ChangeSettings.cs:31-93 | an unknown type is BadRequest; a missing or empty `Guid` claim is Unauthorized; malformed id text is a caught exception; a failed update is a 500; every failure leaves the store and the cookie as they were; Ok exactly when the update succeeds, and then the column holds the new value and the cookie holds the rotated claims with the same authentication type and the same user |
| Scenarios.RotateIssuedDisplayname | AsM/Api/ChangeSettings.cs:69-74 | rotating the display name into the three issued claims only appends the new claim |
| Scenarios.AliceCreated | AsM/Services/UserService.cs:58-104 | creating alice in an empty store succeeds and writes exactly her row and one password blob |
| Scenarios.AliceSignsIn | AsM/Services/AuthService.cs:30-57 | alice signs in by username and by email with her password, and a password deriving another key is refused |
| Scenarios.SignInThenChangeDisplayname | AsM/Api/ChangeSettings.cs:31-93 | after sign-in, a display-name change updates that user's row and leaves the three issued claims followed by one display-name claim |
| Scenarios.SignOutThenChangeRefused | AsM/Api/SignIn.cs:72-76 | after sign-out, a settings change is Unauthorized and writes nothing |
| Scenarios.AccountLifeCycle | AsM/Services/UserService.cs:58-104 | an account created in an empty store signs in by username and by email, a wrong password is refused, and a display-name change succeeds while the name claim stays |
| Scenarios.FailOpenAdmitsDuplicate | AsM/Data/CassandraDbContext.cs:226-242 | while the username count fails, an account is created under a username another account holds, breaking uniqueness |

## Left out

- The Neo4j graph store and its helpers are not used by this core.
- Dependency-injection, cookie and middleware setup in `Program.cs` is not modelled; the model only uses its default scheme `Cookies`.
- The browser scripts under `wwwroot` are not modelled.
- The SMTP client is not modelled: sending mail is network I/O, so the delivery outcome is a parameter.
- PBKDF2, `RandomNumberGenerator` and base64 are not modelled: they are library code. The key derivation is a parameter. Stored hash text is either `Base64(bytes)` or text that is not base64.
- Timing is not modelled. The comparison loop exits early, and constant-time behaviour cannot be stated in this model.
- Cookie expiry (`ExpiresUtc`, `IsPersistent`) and the 14-day cookie lifetime are not modelled: they depend on the clock. The authentication properties of a settings change (AsM/Api/ChangeSettings.cs:23-27) are a `static readonly` field, so their `ExpiresUtc` is fixed ten minutes after the type is first initialised, and a settings change made later issues a cookie that has already expired. `ChangeSettings.ChangeSettingsPost`'s cookie clause is to be read with expiry ignored.
- Races between concurrent requests are not modelled. Each operation runs against one store value, so the check-then-write race is outside the model.
- Guids.Parse: only the plain hyphenated "D" form is accepted. The other text forms `new Guid` accepts, surrounding whitespace, and any per-component prefixes the library tolerates for compatibility are not modelled; such text is rejected here.
- Session.FindFirst: case is folded for ASCII only, not with the full invariant-culture fold of `OrdinalIgnoreCase`.
- ChangeSettings.ChangeSettingsPost: a caught exception is one response without the message text, and the exception log line is not modelled.
- SignIn.SignInPost: the catch-all 500 branch is not modelled. `AuthenticateAsync` catches its own exceptions, and a failure inside `SignInAsync` is framework behaviour.
- Null request fields (`Account`, `Password`, `Type`, `Data`) are not modelled; strings are never null.
- EmailService.GenerateVerificationCode: a negative length, which throws in C#, is excluded by the `nat` type.
- `GetUserAsync` and `GetUsersAsync` are not modelled: they are pass-through reads that the core does not call.
- The `Salt` column of `Credentials` is unused by the code, so it is not modelled.
- The schema types of `email_verification` are not modelled. The mapped class declares `id` as a Guid, while the code writes and reads it as text.
- Connection handling is not modelled. A failing connection or driver error is an entry in `faults` and lasts for the whole request.
- Logging is not modelled.

=== FILE: account_store.dfy ===
/** The Cassandra account store (ICassandraDbContext) as a value: the
    `users`, `credentials` and `email_verification` tables, plus the set of
    operations that currently fail. Every operation of the store opens its
    own session and catches every exception; a failing operation returns
    null (reads), false (writes and existence checks) and writes nothing. */
module AccountStore {
  import opened Base
  import opened Guids
  import opened Models

  /** The store operations the core calls. */
  datatype Op =
    | ReadUserByUsername | ReadUserByEmail | InsertUser | UpdateSetting
    | CountUsername | CountEmail | ReadHash | WriteHash | WriteCode | ReadCode

  /** The non-key columns of a `users` row. */
  datatype Row = Row(
    dob: Option<LocalDate>,
    email: Option<string>,
    username: Option<string>,
    displayname: Option<string>)

  const EmptyRow := Row(None, None, None, None)

  /** The text in the `hash` column: either the base64 encoding of some bytes
      (identified with those bytes) or text that is not valid base64. */
  datatype HashText = Base64(bytes: seq<byte>) | NotBase64(text: string)

  /** `users` keyed by id, `credentials` keyed by id, `email_verification`
      keyed by email; `faults` lists the operations that fail (no session, or
      the driver throws) for the duration of one request. */
  datatype Db = Db(
    users: map<Guid, Row>,
    credentials: map<Guid, HashText>,
    verification: map<string, string>,
    faults: set<Op>)

  function Column(r: Row, f: Field): Option<string> {
    match f
    case DisplaynameField => r.displayname
    case UsernameField => r.username
    case EmailField => r.email
  }

  /** One column of a row overwritten, the rest kept. */
  function SetColumn(r: Row, f: Field, v: string): (r': Row)
    ensures Column(r', f) == Some(v)
    ensures forall g :: g != f ==> Column(r', g) == Column(r, g)
    ensures r'.dob == r.dob
  {
    match f
    case DisplaynameField => r.(displayname := Some(v))
    case UsernameField => r.(username := Some(v))
    case EmailField => r.(email := Some(v))
  }

  /** The User a mapped query materialises from a row. */
  function ToUser(id: Guid, r: Row): User {
    User(Some(id), r.dob, r.email, r.username, r.displayname)
  }

  /** The columns an INSERT of a User writes besides the key. */
  function RowOf(u: User): Row {
    Row(u.dob, u.email, u.username, u.displayname)
  }

  /** The ids whose `f` column holds exactly `v`. */
  function Holders(users: map<Guid, Row>, f: Field, v: string): set<Guid> {
    set id | id in users && Column(users[id], f) == Some(v)
  }

  lemma SingletonUnique(s: set<Guid>)
    requires |s| == 1
    ensures forall a, b :: a in s && b in s ==> a == b
  {
    forall a, b | a in s && b in s
      ensures a == b
    {
      assert |s - {a}| == 0;
    }
  }

  /** `mapper.SingleOrDefaultAsync<User>("SELECT * FROM users WHERE <col> = ?")`:
      the one matching row; no row, more than one row (SingleOrDefault
      throws) and a failing store all give null. */
  function SelectSingle(db: Db, op: Op, f: Field, v: string): (u: Option<User>)
    ensures u.Some? <==> op !in db.faults && |Holders(db.users, f, v)| == 1
    ensures u.Some? ==>
      && u.value.id.Some?
      && u.value.id.value in db.users
      && u.value == ToUser(u.value.id.value, db.users[u.value.id.value])
      && Holders(db.users, f, v) == {u.value.id.value}
  {
    var ids := Holders(db.users, f, v);
    if op in db.faults || |ids| != 1 then None
    else
      SingletonUnique(ids);
      var id :| id in ids;
      assert ids == {id} by {
        forall x | x in ids ensures x == id { }
      }
      Some(ToUser(id, db.users[id]))
  }

  function GetUserByUsername(db: Db, username: string): Option<User> {
    SelectSingle(db, ReadUserByUsername, UsernameField, username)
  }

  function GetUserByEmail(db: Db, email: string): Option<User> {
    SelectSingle(db, ReadUserByEmail, EmailField, email)
  }

  /** `SELECT count(*) ... WHERE <col> = ?` followed by `count > 0`; a failing
      store answers false (it fails open). */
  function Exists(db: Db, op: Op, f: Field, v: string): (b: bool)
    ensures b <==> op !in db.faults && exists id :: id in db.users && Column(db.users[id], f) == Some(v)
  {
    var ids := Holders(db.users, f, v);
    if op in db.faults then false
    else if ids == {} then
      assert forall id :: id in db.users && Column(db.users[id], f) == Some(v) ==> id in ids;
      false
    else
      var id :| id in ids;
      true
  }

  function UsernameExists(db: Db, username: string): bool {
    Exists(db, CountUsername, UsernameField, username)
  }

  function EmailExists(db: Db, email: string): bool {
    Exists(db, CountEmail, EmailField, email)
  }

  /** `INSERT INTO users (id, dob, email, username, displayname)`: a Cassandra
      insert is an upsert, so an existing row with that id is replaced. A null
      id cannot be bound as a key and the insert fails. */
  function CreateUser(db: Db, user: User): (r: (bool, Db))
    ensures r.0 <==> InsertUser !in db.faults && user.id.Some?
    ensures !r.0 ==> r.1 == db
    ensures r.0 ==>
      && user.id.value in r.1.users
      && ToUser(user.id.value, r.1.users[user.id.value]) == user
      && r.1.users - {user.id.value} == db.users - {user.id.value}
      && r.1.(users := db.users) == db
  {
    if InsertUser in db.faults || user.id.None? then (false, db)
    else (true, db.(users := db.users[user.id.value := RowOf(user)]))
  }

  /** The row an UPDATE starts from: the stored one, or an empty one, since a
      Cassandra UPDATE of an absent key creates the row. */
  function CurrentRow(db: Db, id: Guid): Row {
    if id in db.users then db.users[id] else EmptyRow
  }

  /** `UPDATE users SET <column> = ? WHERE id = ?` for the three setting types;
      any other type answers false without writing. */
  function UpdateUserSetting(db: Db, id: Guid, settingType: string, value: string): (r: (bool, Db))
    ensures r.0 <==> UpdateSetting !in db.faults && ParseSetting(settingType).Some?
    ensures !r.0 ==> r.1 == db
    ensures r.0 ==>
      var f := ParseSetting(settingType).value;
      && id in r.1.users
      && Column(r.1.users[id], f) == Some(value)
      && (forall g :: g != f ==> Column(r.1.users[id], g) == Column(CurrentRow(db, id), g))
      && r.1.users[id].dob == CurrentRow(db, id).dob
      && r.1.users - {id} == db.users - {id}
      && r.1.(users := db.users) == db
  {
    if UpdateSetting in db.faults then (false, db)
    else
      match ParseSetting(settingType)
      case None => (false, db)
      case Some(f) => (true, db.(users := db.users[id := SetColumn(CurrentRow(db, id), f, value)]))
  }

  /** `SELECT hash FROM credentials WHERE id = ?` */
  function GetPasswordHash(db: Db, id: Guid): Option<HashText> {
    if ReadHash in db.faults || id !in db.credentials then None else Some(db.credentials[id])
  }

  /** `INSERT INTO credentials (id, hash)`: overwrites any earlier hash. */
  function SetPasswordHash(db: Db, id: Guid, hash: HashText): (r: (bool, Db))
    ensures r.0 <==> WriteHash !in db.faults
    ensures !r.0 ==> r.1 == db
    ensures r.0 ==> r.1.credentials == db.credentials[id := hash] && r.1.(credentials := db.credentials) == db
  {
    if WriteHash in db.faults then (false, db)
    else (true, db.(credentials := db.credentials[id := hash]))
  }

  /** `INSERT INTO email_verification (id, email)` with the code as `id`: one
      code per email, the latest wins. */
  function StoreEmailVerificationCode(db: Db, email: string, code: string): (r: (bool, Db))
    ensures r.0 <==> WriteCode !in db.faults
    ensures !r.0 ==> r.1 == db
    ensures r.0 ==> r.1.verification == db.verification[email := code] && r.1.(verification := db.verification) == db
  {
    if WriteCode in db.faults then (false, db)
    else (true, db.(verification := db.verification[email := code]))
  }

  /** `SELECT id FROM email_verification WHERE email = ?` */
  function GetEmailVerificationCode(db: Db, email: string): Option<string> {
    if ReadCode in db.faults || email !in db.verification then None else Some(db.verification[email])
  }

  /** A stored hash reads back unchanged while the read succeeds. */
  lemma HashReadAfterWrite(db: Db, id: Guid, hash: HashText)
    requires SetPasswordHash(db, id, hash).0 && ReadHash !in db.faults
    ensures GetPasswordHash(SetPasswordHash(db, id, hash).1, id) == Some(hash)
  {
  }

  /** A stored code reads back unchanged while the read succeeds. */
  lemma CodeReadAfterWrite(db: Db, email: string, code: string)
    requires StoreEmailVerificationCode(db, email, code).0 && ReadCode !in db.faults
    ensures GetEmailVerificationCode(StoreEmailVerificationCode(db, email, code).1, email) == Some(code)
  {
  }

  /** After a successful insert the user is found by its username and by its
      email, provided no other row holds the same value. */
  lemma InsertThenSelect(db: Db, user: User, f: Field, v: string)
    requires CreateUser(db, user).0
    requires f != DisplaynameField && Column(RowOf(user), f) == Some(v)
    requires forall id :: id in db.users && id != user.id.value ==> Column(db.users[id], f) != Some(v)
    requires (if f == UsernameField then ReadUserByUsername else ReadUserByEmail) !in db.faults
    ensures SelectSingle(CreateUser(db, user).1, if f == UsernameField then ReadUserByUsername else ReadUserByEmail, f, v) == Some(user)
  {
    var db' := CreateUser(db, user).1;
    var id := user.id.value;
    assert Holders(db'.users, f, v) == {id};
  }
}

=== FILE: auth_service.dfy ===
/** AuthService: password check and storage over the 36-byte blob, sign-in
    by username or email, and email-code verification. Every operation
    catches all exceptions and reports null or false instead. */
module AuthService {
  import opened Base
  import opened Guids
  import opened Models
  import opened AccountStore
  import opened PasswordBlob
  import EmailService

  /** string.IsNullOrEmpty on the text of a present hash column. */
  predicate IsEmptyText(h: HashText) {
    match h
    case Base64(b) => |b| == 0
    case NotBase64(t) => |t| == 0
  }

  /** CheckPasswordAsync: load the hash; null or empty is false; text that is
      not base64 throws (false); otherwise the blob check, where an exception
      again means false. */
  function CheckPassword(kdf: Kdf, db: Db, userId: Guid, password: string): (ok: bool)
    ensures ok <==>
      && ReadHash !in db.faults
      && userId in db.credentials
      && db.credentials[userId].Base64?
      && Matches(kdf, password, db.credentials[userId].bytes)
    ensures IsNullOrEmptyHash(GetPasswordHash(db, userId)) ==> !ok
  {
    var hash := GetPasswordHash(db, userId);
    if IsNullOrEmptyHash(hash) then false
    else
      match hash.value
      case NotBase64(_) => false
      case Base64(hashBytes) =>
        match Verify(kdf, password, hashBytes)
        case Returned(b) => b
        case Threw => false
  }

  predicate IsNullOrEmptyHash(h: Option<HashText>) {
    h.None? || IsEmptyText(h.value)
  }

  /** SetPasswordAsync with `salt` the 16 bytes RandomNumberGenerator.Fill
      produced: store base64(salt ++ KDF(password, salt)). */
  function SetPassword(kdf: Kdf, db: Db, userId: Guid, password: string, salt: Salt): (r: (bool, Db))
    ensures r.0 <==> WriteHash !in db.faults
    ensures !r.0 ==> r.1 == db
    ensures r.0 ==>
      && userId in r.1.credentials
      && r.1.credentials[userId].Base64?
      && |r.1.credentials[userId].bytes| == BlobLength
      && r.1.credentials[userId].bytes[..SaltLength] == salt
      && Matches(kdf, password, r.1.credentials[userId].bytes)
      && r.1.credentials - {userId} == db.credentials - {userId}
      && r.1.(credentials := db.credentials) == db
  {
    SetPasswordHash(db, userId, Base64(MakeBlob(kdf, password, salt)))
  }

  /** After a successful set, a password passes the check exactly when it
      derives the same key as the one that was set under the new salt; in
      particular the password that was set passes. */
  lemma SetThenCheck(kdf: Kdf, db: Db, userId: Guid, password: string, salt: Salt, attempt: string)
    requires SetPassword(kdf, db, userId, password, salt).0
    requires ReadHash !in db.faults
    ensures CheckPassword(kdf, SetPassword(kdf, db, userId, password, salt).1, userId, password)
    ensures CheckPassword(kdf, SetPassword(kdf, db, userId, password, salt).1, userId, attempt)
        <==> kdf(attempt, salt) == kdf(password, salt)
  {
    MakeBlobAccepts(kdf, password, attempt, salt);
  }

  /** The lookup AuthenticateAsync performs: by email when the account string
      contains '@', by username otherwise. */
  function LookupAccount(db: Db, account: string): (u: Option<User>)
    ensures '@' in account ==> u == GetUserByEmail(db, account)
    ensures '@' !in account ==> u == GetUserByUsername(db, account)
    ensures u.Some? && '@' in account ==>
      u.value.email == Some(account) && Holders(db.users, EmailField, account) == {u.value.id.value}
    ensures u.Some? && '@' !in account ==>
      u.value.username == Some(account) && Holders(db.users, UsernameField, account) == {u.value.id.value}
  {
    if '@' in account then GetUserByEmail(db, account) else GetUserByUsername(db, account)
  }

  /** AuthenticateAsync: the looked-up user when it has an id and the password
      checks; null otherwise, the same null for "no such account" and for
      "wrong password". */
  function Authenticate(kdf: Kdf, db: Db, account: string, password: string): (u: Option<User>)
    ensures u.Some? <==>
      && LookupAccount(db, account).Some?
      && LookupAccount(db, account).value.id.Some?
      && CheckPassword(kdf, db, LookupAccount(db, account).value.id.value, password)
    ensures u.Some? ==> u == LookupAccount(db, account)
    ensures LookupAccount(db, account).None? ==> u.None?
  {
    var user := LookupAccount(db, account);
    if user.None? || user.value.id.None? then None
    else if CheckPassword(kdf, db, user.value.id.value, password) then user
    else None
  }

  /** When the lookup finds nobody, no password is consulted: the answer is
      null whatever the credentials table holds and whatever the KDF is. */
  lemma UnknownAccountIgnoresCredentials(kdf: Kdf, kdf': Kdf, db: Db, account: string, password: string, creds: map<Guid, HashText>)
    requires LookupAccount(db, account).None?
    ensures Authenticate(kdf', db.(credentials := creds), account, password) == None
    ensures Authenticate(kdf, db, account, password) == None
  {
    assert LookupAccount(db.(credentials := creds), account) == LookupAccount(db, account);
  }

  /** A user is signed in by username exactly when it alone holds that
      username, its hash matches, and the reads succeed. */
  lemma AuthenticateByUsername(kdf: Kdf, db: Db, id: Guid, username: string, password: string)
    requires '@' !in username
    requires id in db.users && Holders(db.users, UsernameField, username) == {id}
    requires ReadUserByUsername !in db.faults
    ensures Authenticate(kdf, db, username, password) == Some(ToUser(id, db.users[id]))
        <==> CheckPassword(kdf, db, id, password)
  {
    assert |Holders(db.users, UsernameField, username)| == 1;
  }

  /** The same for an email address, which contains '@'. */
  lemma AuthenticateByEmail(kdf: Kdf, db: Db, id: Guid, email: string, password: string)
    requires '@' in email
    requires id in db.users && Holders(db.users, EmailField, email) == {id}
    requires ReadUserByEmail !in db.faults
    ensures Authenticate(kdf, db, email, password) == Some(ToUser(id, db.users[id]))
        <==> CheckPassword(kdf, db, id, password)
  {
    assert |Holders(db.users, EmailField, email)| == 1;
  }

  /** VerifyEmailAsync: the stored code is present, non-empty and equal. */
  function VerifyEmail(db: Db, email: string, code: string): (ok: bool)
    ensures ok <==>
      && ReadCode !in db.faults
      && email in db.verification
      && |db.verification[email]| > 0
      && code == db.verification[email]
    ensures |code| == 0 ==> !ok
  {
    var storedCode := GetEmailVerificationCode(db, email);
    !IsNullOrEmpty(storedCode) && storedCode.value == code
  }

  /** SendVerificationEmailAsync: a default-length code from the random bytes,
      stored and mailed by the email service. */
  method SendVerificationEmail(db: Db, email: string, displayName: string, randomBytes: seq<byte>, delivered: bool)
    returns (ok: bool, db': Db)
    requires |randomBytes| == EmailService.DefaultCodeLength
    ensures ok == delivered
    ensures WriteCode in db.faults ==> db' == db
    ensures WriteCode !in db.faults ==>
      && email in db'.verification
      && |db'.verification[email]| == EmailService.DefaultCodeLength
      && (forall i :: 0 <= i < EmailService.DefaultCodeLength ==>
            db'.verification[email][i] == EmailService.Alphabet[randomBytes[i] % |EmailService.Alphabet|])
      && db'.verification - {email} == db.verification - {email}
      && db'.(verification := db.verification) == db
    ensures WriteCode !in db.faults && ReadCode !in db.faults ==>
      VerifyEmail(db', email, db'.verification[email])
  {
    var code := EmailService.GenerateVerificationCode(randomBytes);
    var r := EmailService.SendVerificationEmail(db, email, displayName, code, delivered);
    ok, db' := r.0, r.1;
  }

  /** A code that was stored is accepted, and it is the only code accepted. */
  lemma VerifyAfterSend(db: Db, email: string, name: string, code: string, delivered: bool, attempt: string)
    requires WriteCode !in db.faults && ReadCode !in db.faults
    ensures VerifyEmail(EmailService.SendVerificationEmail(db, email, name, code, delivered).1, email, attempt)
        <==> |code| > 0 && attempt == code
  {
  }
}

=== FILE: base.dfy ===
/** Small shared vocabulary: bytes, optional values, exception outcomes and
    the ASCII part of .NET's ordinal case-insensitive string comparison. */
module Base {

  /** An unsigned 8-bit value, as in a .NET byte[]. */
  type byte = x: int | 0 <= x < 256

  /** A .NET reference or Nullable<T> that may be null. */
  datatype Option<+T> = None | Some(value: T) {
    /** The `??` operator: the value, or the default when null. */
    function GetOr(default: T): (r: T)
      ensures Some? ==> r == value
      ensures None? ==> r == default
    {
      match this
      case Some(v) => v
      case None => default
    }
  }

  /** What a block of code that may throw produced; the enclosing catch
      clause decides what a `Threw` becomes. */
  datatype Outcome<+T> = Returned(value: T) | Threw

  /** string.IsNullOrEmpty */
  predicate IsNullOrEmpty(s: Option<string>) {
    s.None? || |s.value| == 0
  }

  /** Upper-cases the ASCII letters a-z and leaves every other character alone. */
  function UpperAscii(c: char): (u: char)
    ensures 'a' <= c <= 'z' ==> u as int == c as int - 32
    ensures !('a' <= c <= 'z') ==> u == c
  {
    if 'a' <= c <= 'z' then (c as int - 32) as char else c
  }

  /** StringComparison.OrdinalIgnoreCase, restricted to ASCII case folding. */
  predicate EqualsIgnoreCase(a: string, b: string) {
    |a| == |b| && forall i :: 0 <= i < |a| ==> UpperAscii(a[i]) == UpperAscii(b[i])
  }
}

=== FILE: change_settings.dfy ===
/** The settings-change endpoint: map the setting type to a claim type,
    identify the user from the "Guid" claim, persist through UserService,
    and only then rebuild the cookie's claims around the new value. */
module ChangeSettings {
  import opened Base
  import opened Guids
  import opened Models
  import opened AccountStore
  import opened Session
  import UserService

  const InvalidSettingType := "Invalid setting type"
  const NotAuthenticated := "User not authenticated properly"
  const UpdateFailed := "Failed to update user setting"

  /** The claim that carries each setting. */
  function ClaimTypeFor(settingType: string): (t: Option<string>)
    ensures t.Some? <==> ParseSetting(settingType).Some?
    ensures settingType == "Displayname" ==> t == Some(DisplaynameClaimType)
    ensures settingType == "Username" ==> t == Some(NameClaimType)
    ensures settingType == "Email" ==> t == Some(EmailClaimType)
    ensures t.Some? ==> !EqualsIgnoreCase(t.value, GuidClaimType)
  {
    match ParseSetting(settingType)
    case None => None
    case Some(DisplaynameField) => Some(DisplaynameClaimType)
    case Some(UsernameField) => Some(NameClaimType)
    case Some(EmailField) => Some(EmailClaimType)
  }

  /** The request carries a non-empty "Guid" claim. */
  predicate HasGuidClaim(cookie: Cookie) {
    var c := FindFirst(RequestIdentity(cookie).claims, GuidClaimType);
    c.Some? && |c.value.value| > 0
  }

  /** The user a request's "Guid" claim names, when the claim is present,
      non-empty and well formed. */
  function ClaimedUser(cookie: Cookie): Option<Guid> {
    var c := FindFirst(RequestIdentity(cookie).claims, GuidClaimType);
    if c.None? then None else Parse(c.value.value)
  }

  /** ChangeSettingsPost. The result is the response, the store afterwards
      and the cookie afterwards. */
  function ChangeSettingsPost(db: Db, cookie: Cookie, settingType: string, data: string): (r: (Response, Db, Cookie))
    ensures ClaimTypeFor(settingType).None? ==> r == (BadRequest(InvalidSettingType), db, cookie)
    ensures ClaimTypeFor(settingType).Some? && !HasGuidClaim(cookie) ==> r == (Unauthorized(NotAuthenticated), db, cookie)
    ensures ClaimTypeFor(settingType).Some? && HasGuidClaim(cookie) && ClaimedUser(cookie).None? ==>
      r == (CaughtException, db, cookie)
    ensures
      (&& ClaimTypeFor(settingType).Some?
       && ClaimedUser(cookie).Some?
       && !UserService.UpdateUserSetting(db, ClaimedUser(cookie).value, settingType, data).0) ==>
      r == (InternalError(UpdateFailed), db, cookie)
    ensures r.0 != Ok ==> r.1 == db && r.2 == cookie
    ensures r.0 == Ok <==>
      && ClaimTypeFor(settingType).Some?
      && ClaimedUser(cookie).Some?
      && UserService.UpdateUserSetting(db, ClaimedUser(cookie).value, settingType, data).0
    ensures r.0 == Ok ==>
      var id := ClaimedUser(cookie).value;
      var claimType := ClaimTypeFor(settingType).value;
      var before := RequestIdentity(cookie);
      && r.1 == UserService.UpdateUserSetting(db, id, settingType, data).1
      && id in r.1.users
      && Column(r.1.users[id], ParseSetting(settingType).value) == Some(data)
      && r.2.AuthCookie? && r.2.scheme == CookieScheme
      && r.2.identity == Identity(Rotate(before.claims, claimType, data), before.authenticationType)
      && OfType(r.2.identity.claims, claimType) == [NewClaim(claimType, data)]
      && ClaimedUser(r.2) == Some(id)
  {
    match ClaimTypeFor(settingType)
    case None => (BadRequest(InvalidSettingType), db, cookie)
    case Some(claimType) =>
      var user := RequestIdentity(cookie);
      var guidClaim := FindFirst(user.claims, GuidClaimType);
      if guidClaim.None? || |guidClaim.value.value| == 0 then (Unauthorized(NotAuthenticated), db, cookie)
      else
        match Parse(guidClaim.value.value)
        case None => (CaughtException, db, cookie)
        case Some(userId) =>
          var success := UserService.UpdateUserSetting(db, userId, settingType, data);
          if !success.0 then (InternalError(UpdateFailed), success.1, cookie)
          else
            RotateKeepsFindFirst(user.claims, claimType, data, GuidClaimType);
            var newIdentity := Identity(Rotate(user.claims, claimType, data), user.authenticationType);
            (Ok, success.1, AuthCookie(CookieScheme, newIdentity))
  }
}

=== FILE: email_service.dfy ===
/** EmailService: verification-code generation from random bytes, and the
    store-then-send step of a verification email. SMTP delivery is not
    modelled; its outcome is a parameter. */
module EmailService {
  import opened Base
  import opened AccountStore

  const Alphabet := "abcdefghijklmnopqrstuvwxyz0123456789"
  const DefaultCodeLength := 8

  /** GenerateVerificationCode(length): `length` random bytes, each mapped to
      chars[b % chars.Length]. The bytes RandomNumberGenerator fills are the
      parameter `randomBytes`; there is one per character. */
  method GenerateVerificationCode(randomBytes: seq<byte>, length: nat := DefaultCodeLength) returns (code: string)
    requires |randomBytes| == length
    ensures |code| == length
    ensures forall i :: 0 <= i < length ==> code[i] == Alphabet[randomBytes[i] % |Alphabet|]
    ensures forall i :: 0 <= i < length ==> code[i] in Alphabet
  {
    var chars := Alphabet;
    var stringChars := new char[length];
    for i := 0 to length
      invariant forall j :: 0 <= j < i ==> stringChars[j] == chars[randomBytes[j] % |chars|]
    {
      stringChars[i] := chars[randomBytes[i] % |chars|];
    }
    code := stringChars[..];
  }

  /** The position of the first occurrence of `c` in `s`. */
  function IndexIn(s: string, c: char): (k: nat)
    requires c in s
    ensures k < |s| && s[k] == c
  {
    if s[0] == c then 0 else 1 + IndexIn(s[1..], c)
  }

  /** A byte below the alphabet size selects its own position. */
  lemma ModBelow(b: int, n: int)
    requires 0 <= b < n
    ensures b % n == b
  {
  }

  /** Bytes that select each character of `code` from `chars` the way the
      generator does, `chars[b % |chars|]`, one byte per character. */
  function Indices(chars: string, code: string): (bytes: seq<byte>)
    requires 0 < |chars| <= 256
    requires forall i :: 0 <= i < |code| ==> code[i] in chars
    ensures |bytes| == |code|
    ensures forall i :: 0 <= i < |code| ==> chars[bytes[i] % |chars|] == code[i]
  {
    if |code| == 0 then []
    else
      var k := IndexIn(chars, code[0]);
      ModBelow(k, |chars|);
      var rest := Indices(chars, code[1..]);
      var bytes := [k] + rest;
      forall i | 1 <= i < |code|
        ensures chars[bytes[i] % |chars|] == code[i]
      {
        assert bytes[i] == rest[i - 1] && code[i] == code[1..][i - 1];
      }
      bytes
  }

  /** Every code over the alphabet is the code some random bytes produce:
      the generator can reach all 36^n codes of length n. */
  lemma EveryCodeReachable(code: string)
    requires forall i :: 0 <= i < |code| ==> code[i] in Alphabet
    ensures exists bytes: seq<byte> ::
      && |bytes| == |code|
      && forall i :: 0 <= i < |code| ==> Alphabet[bytes[i] % |Alphabet|] == code[i]
  {
    var bytes := Indices(Alphabet, code);
  }

  /** SendVerificationEmailAsync: store the code for the address, then send.
      The store's answer is discarded, so the result is the delivery outcome
      alone, whether or not the code was stored. */
  function SendVerificationEmail(db: Db, to: string, toName: string, code: string, delivered: bool): (r: (bool, Db))
    ensures r.0 == delivered
    ensures WriteCode in db.faults ==> r.1 == db
    ensures WriteCode !in db.faults ==>
      r.1.verification == db.verification[to := code] && r.1.(verification := db.verification) == db
  {
    var stored := StoreEmailVerificationCode(db, to, code);
    (delivered, stored.1)
  }
}

=== FILE: guids.dfy ===
/** System.Guid, as far as this system uses it: Guid.NewGuid() supplies a
    value (a parameter of the model), Guid.ToString() writes the "D" text
    form that goes into the "Guid" session claim, and new Guid(string)
    reads it back when a settings change arrives. */
module Guids {
  import opened Base

  predicate IsLowerHex(c: char) {
    '0' <= c <= '9' || 'a' <= c <= 'f'
  }

  predicate IsHex(c: char) {
    IsLowerHex(c) || 'A' <= c <= 'F'
  }

  function ToLowerHex(c: char): (l: char)
    requires IsHex(c)
    ensures IsLowerHex(l)
    ensures IsLowerHex(c) ==> l == c
  {
    if 'A' <= c <= 'F' then (c as int + 32) as char else c
  }

  const DigitCount := 32
  const TextLength := 36

  /** The 32 hexadecimal digits of a Guid, lower case, most significant first. */
  type GuidDigits = s: seq<char> | |s| == DigitCount && forall i :: 0 <= i < |s| ==> IsLowerHex(s[i])
    witness seq(32, _ => '0')

  datatype Guid = Guid(digits: GuidDigits)

  /** Positions of the four hyphens in the "D" form xxxxxxxx-xxxx-xxxx-xxxx-xxxxxxxxxxxx. */
  predicate IsHyphenAt(i: int) {
    i == 8 || i == 13 || i == 18 || i == 23
  }

  /** The position in the "D" text of the k-th digit. */
  function TextPos(k: int): (i: int)
    requires 0 <= k < DigitCount
    ensures 0 <= i < TextLength && !IsHyphenAt(i)
  {
    if k < 8 then k else if k < 12 then k + 1 else if k < 16 then k + 2 else if k < 20 then k + 3 else k + 4
  }

  /** The digit shown at a non-hyphen position of the "D" text. */
  function DigitPos(i: int): (k: int)
    requires 0 <= i < TextLength && !IsHyphenAt(i)
    ensures 0 <= k < DigitCount && TextPos(k) == i
  {
    if i < 8 then i else if i < 13 then i - 1 else if i < 18 then i - 2 else if i < 23 then i - 3 else i - 4
  }

  /** Guid.ToString(): the "D" format, lower-case digits. */
  function Format(g: Guid): (s: string)
    ensures |s| == TextLength
    ensures forall i :: 0 <= i < TextLength && IsHyphenAt(i) ==> s[i] == '-'
    ensures forall k :: 0 <= k < DigitCount ==> s[TextPos(k)] == g.digits[k]
  {
    seq(TextLength, i requires 0 <= i < TextLength =>
      if IsHyphenAt(i) then '-' else g.digits[DigitPos(i)])
  }

  predicate IsGuidText(s: string) {
    && |s| == TextLength
    && forall i :: 0 <= i < |s| ==> (if IsHyphenAt(i) then s[i] == '-' else IsHex(s[i]))
  }

  /** new Guid(string) for the "D" format: hex digits of either case, hyphens
      in their places; anything else makes the constructor throw, which is
      reported here as None. */
  function Parse(s: string): (g: Option<Guid>)
    ensures g.Some? <==> IsGuidText(s)
    ensures g.Some? ==> forall k :: 0 <= k < DigitCount ==> g.value.digits[k] == ToLowerHex(s[TextPos(k)])
  {
    if IsGuidText(s) then
      Some(Guid(seq(DigitCount, k requires 0 <= k < DigitCount => ToLowerHex(s[TextPos(k)]))))
    else
      None
  }

  /** Reading back what ToString() wrote gives the same Guid. */
  lemma ParseFormat(g: Guid)
    ensures Parse(Format(g)) == Some(g)
  {
    var s := Format(g);
    forall i | 0 <= i < |s| && !IsHyphenAt(i)
      ensures IsHex(s[i])
    {
      assert s[TextPos(DigitPos(i))] == g.digits[DigitPos(i)];
    }
    assert IsGuidText(s);
    var p := Parse(s).value;
    assert p.digits == g.digits;
  }

  /** Distinct Guids have distinct text forms, so a "Guid" claim names one user. */
  lemma FormatInjective(a: Guid, b: Guid)
    ensures Format(a) == Format(b) ==> a == b
  {
    if Format(a) == Format(b) {
      ParseFormat(a);
      ParseFormat(b);
    }
  }
}

=== FILE: models.dfy ===
/** The plain records of the system: the `users` row as the services see it,
    and the three profile settings a user may change. */
module Models {
  import opened Base
  import opened Guids

  /** Cassandra's LocalDate; carried along, never inspected. */
  datatype LocalDate = LocalDate(year: int, month: int, day: int)

  /** The User model class. Every property is nullable in the source. */
  datatype User = User(
    id: Option<Guid>,
    dob: Option<LocalDate>,
    email: Option<string>,
    username: Option<string>,
    displayname: Option<string>)

  /** The changeable columns of the `users` table. */
  datatype Field = DisplaynameField | UsernameField | EmailField

  /** The setting-type strings the services accept, exactly as spelled there
      (ordinal comparison, so "username" is not a setting type). */
  function ParseSetting(settingType: string): (f: Option<Field>)
    ensures f == Some(DisplaynameField) <==> settingType == "Displayname"
    ensures f == Some(UsernameField) <==> settingType == "Username"
    ensures f == Some(EmailField) <==> settingType == "Email"
  {
    if settingType == "Displayname" then Some(DisplaynameField)
    else if settingType == "Username" then Some(UsernameField)
    else if settingType == "Email" then Some(EmailField)
    else None
  }
}

=== FILE: password_blob.dfy ===
/** The stored password blob: a 16-byte salt followed by the 20-byte key that
    PBKDF2 (HMAC-SHA512, 10000 iterations, section 5.2 of RFC 8018) derives
    from the password and that salt. The derivation itself is a parameter:
    any deterministic function from (password, salt) to 20 bytes. */
module PasswordBlob {
  import opened Base

  const SaltLength := 16
  const KeyLength := 20
  const BlobLength := 36

  type Salt = s: seq<byte> | |s| == SaltLength witness seq(16, _ => 0)

  type DerivedKey = k: seq<byte> | |k| == KeyLength witness seq(20, _ => 0)

  /** `new Rfc2898DeriveBytes(password, salt, 10000, SHA512).GetBytes(20)` */
  type Kdf = (string, seq<byte>) -> DerivedKey

  /** What a correct check accepts: the blob is long enough, and its bytes
      16..35 are the key derived from the password and its first 16 bytes. */
  predicate Matches(kdf: Kdf, password: string, blob: seq<byte>) {
    |blob| >= BlobLength && blob[SaltLength..BlobLength] == kdf(password, blob[..SaltLength])
  }

  /** SetPasswordAsync's layout: salt, then the key derived with that salt. */
  function MakeBlob(kdf: Kdf, password: string, salt: Salt): (blob: seq<byte>)
    ensures |blob| == BlobLength
    ensures blob[..SaltLength] == salt
    ensures blob[SaltLength..] == kdf(password, salt)
    ensures Matches(kdf, password, blob)
  {
    salt + kdf(password, salt)
  }

  /** The comparison loop of CheckPasswordAsync from index i on: it returns
      false at the first differing byte and raises IndexOutOfRange when the
      stored blob ends before byte 16 + i. Bytes before 16 + i were already
      read, so they exist. */
  function CompareFrom(hashBytes: seq<byte>, computed: DerivedKey, i: nat): (r: Outcome<bool>)
    requires i <= KeyLength
    requires i == 0 || SaltLength + i <= |hashBytes|
    ensures r == Returned(true) <==> |hashBytes| >= BlobLength && hashBytes[SaltLength + i..BlobLength] == computed[i..]
    ensures r == Threw ==> |hashBytes| < BlobLength
    ensures r == Returned(false) ==>
      exists j :: i <= j < KeyLength && SaltLength + j < |hashBytes| && hashBytes[SaltLength + j] != computed[j]
    decreases KeyLength - i
  {
    if i == KeyLength then Returned(true)
    else if SaltLength + i >= |hashBytes| then Threw
    else if hashBytes[SaltLength + i] != computed[i] then Returned(false)
    else
      var rest := CompareFrom(hashBytes, computed, i + 1);
      assert |hashBytes| >= BlobLength ==>
        hashBytes[SaltLength + i..BlobLength] == [hashBytes[SaltLength + i]] + hashBytes[SaltLength + i + 1..BlobLength];
      assert computed[i..] == [computed[i]] + computed[i + 1..];
      rest
  }

  /** The try block of CheckPasswordAsync once the blob is decoded: copy the
      salt (Array.Copy throws on fewer than 16 bytes), derive, compare. */
  function Verify(kdf: Kdf, password: string, hashBytes: seq<byte>): (r: Outcome<bool>)
    ensures r == Returned(true) <==> Matches(kdf, password, hashBytes)
    ensures r == Threw ==> |hashBytes| < BlobLength
  {
    if |hashBytes| < SaltLength then Threw
    else CompareFrom(hashBytes, kdf(password, hashBytes[..SaltLength]), 0)
  }

  /** Bytes after index 35 play no part in the check. */
  lemma {:induction false} TrailingBytesIgnored(kdf: Kdf, password: string, blob: seq<byte>, extra: seq<byte>)
    requires |blob| >= BlobLength
    ensures Matches(kdf, password, blob + extra) <==> Matches(kdf, password, blob)
  {
    var b := blob + extra;
    assert b[..SaltLength] == blob[..SaltLength];
    assert b[SaltLength..BlobLength] == blob[SaltLength..BlobLength];
  }

  /** A blob made for one password accepts another password exactly when the
      two derive the same key under the blob's salt: whether a wrong password
      is rejected rests on the KDF alone. */
  lemma MakeBlobAccepts(kdf: Kdf, password: string, other: string, salt: Salt)
    ensures Matches(kdf, other, MakeBlob(kdf, password, salt)) <==> kdf(other, salt) == kdf(password, salt)
  {
    var blob := MakeBlob(kdf, password, salt);
    assert blob[..SaltLength] == salt;
    assert blob[SaltLength..BlobLength] == blob[SaltLength..];
  }
}

=== FILE: scenarios.dfy ===
/** Properties that span several endpoints: the cookie issued at sign-in
    steers a later settings change to the same account, sign-out ends that,
    and the account life cycle from creation to a profile change. */
module Scenarios {
  import opened Base
  import opened Guids
  import opened Models
  import opened AccountStore
  import opened PasswordBlob
  import opened Session
  import AuthService
  import UserService
  import SignIn
  import ChangeSettings

  /** A display-name rotation of the issued claims appends one claim: the
      issued list holds no display-name claim to drop. */
  lemma RotateIssuedDisplayname(user: User, name: string)
    requires user.id.Some?
    ensures Rotate(SignIn.IssueClaims(user), DisplaynameClaimType, name)
         == SignIn.IssueClaims(user) + [NewClaim(DisplaynameClaimType, name)]
  {
    assert |DisplaynameClaimType| != |EmailClaimType| && |DisplaynameClaimType| != |NameClaimType|
      && |DisplaynameClaimType| != |GuidClaimType|;
    WithoutAbsent(SignIn.IssueClaims(user), DisplaynameClaimType);
  }

  /** A display-name change made with the cookie a sign-in issued updates the
      signed-in account's row and appends one "Displayname" claim to the
      three issued claims. */
  lemma SignInThenChangeDisplayname(kdf: Kdf, db: Db, cookie: Cookie, account: string, password: string, name: string)
    requires SignIn.SignInPost(kdf, db, cookie, account, password).0 == OkSuccess
    requires UpdateSetting !in db.faults
    ensures
      var user := AuthService.Authenticate(kdf, db, account, password).value;
      var signedIn := SignIn.SignInPost(kdf, db, cookie, account, password).1;
      var r := ChangeSettings.ChangeSettingsPost(db, signedIn, "Displayname", name);
      && r.0 == Ok
      && user.id.value in r.1.users
      && r.1.users[user.id.value].displayname == Some(name)
      && r.1.users - {user.id.value} == db.users - {user.id.value}
      && r.2.identity.claims == SignIn.IssueClaims(user) + [NewClaim(DisplaynameClaimType, name)]
  {
    var user := AuthService.Authenticate(kdf, db, account, password).value;
    var signedIn := SignIn.SignInPost(kdf, db, cookie, account, password).1;
    assert RequestIdentity(signedIn).claims == SignIn.IssueClaims(user);
    assert ChangeSettings.ClaimedUser(signedIn) == user.id;
    RotateIssuedDisplayname(user, name);
  }

  /** After sign-out, a settings change is refused as unauthenticated. */
  lemma SignOutThenChangeRefused(db: Db, cookie: Cookie, settingType: string, data: string)
    requires ParseSetting(settingType).Some?
    ensures ChangeSettings.ChangeSettingsPost(db, SignIn.SignOutPost(cookie).1, settingType, data)
         == (Unauthorized(ChangeSettings.NotAuthenticated), db, NoCookie)
  {
  }

  const Alice := User(None, None, Some("alice@x.com"), Some("alice"), None)
  const EmptyDb := Db(map[], map[], map[], {})

  /** The store after alice/alice@x.com/pw1 was created with `id` and `salt`. */
  function AliceDb(kdf: Kdf, id: Guid, salt: Salt): Db {
    Db(map[id := RowOf(Alice)], map[id := Base64(MakeBlob(kdf, "pw1", salt))], map[], {})
  }

  /** Creating alice in an empty store succeeds and writes one row and one hash. */
  lemma AliceCreated(kdf: Kdf, id: Guid, salt: Salt)
    ensures UserService.CreateUser(kdf, EmptyDb, Alice, "pw1", id, salt)
         == (true, AliceDb(kdf, id, salt), Alice.(id := Some(id)))
  {
    assert UserService.IsUsernameAvailable(EmptyDb, "alice");
    assert UserService.IsEmailAvailable(EmptyDb, "alice@x.com");
  }

  /** Alice signs in by username and by email with pw1, and not with "wrong"
      when that derives a different key. */
  lemma AliceSignsIn(kdf: Kdf, id: Guid, salt: Salt)
    requires kdf("wrong", salt) != kdf("pw1", salt)
    ensures AuthService.Authenticate(kdf, AliceDb(kdf, id, salt), "alice", "pw1") == Some(Alice.(id := Some(id)))
    ensures AuthService.Authenticate(kdf, AliceDb(kdf, id, salt), "alice@x.com", "pw1") == Some(Alice.(id := Some(id)))
    ensures AuthService.Authenticate(kdf, AliceDb(kdf, id, salt), "alice", "wrong") == None
  {
    var db := AliceDb(kdf, id, salt);
    assert '@' !in "alice";
    assert '@' in "alice@x.com" by { assert "alice@x.com"[5] == '@'; }
    assert Holders(db.users, UsernameField, "alice") == {id};
    assert Holders(db.users, EmailField, "alice@x.com") == {id};
    MakeBlobAccepts(kdf, "pw1", "pw1", salt);
    MakeBlobAccepts(kdf, "pw1", "wrong", salt);
    AuthService.AuthenticateByUsername(kdf, db, id, "alice", "pw1");
    AuthService.AuthenticateByEmail(kdf, db, id, "alice@x.com", "pw1");
    AuthService.AuthenticateByUsername(kdf, db, id, "alice", "wrong");
  }

  /** The life of one account: create alice/alice@x.com/pw1 in an empty
      store, sign in by username and by email, fail with a wrong password,
      then change the display name while the username claim stays. */
  lemma AccountLifeCycle(kdf: Kdf, id: Guid, salt: Salt)
    requires kdf("wrong", salt) != kdf("pw1", salt)
    ensures
      var created := UserService.CreateUser(kdf, EmptyDb, Alice, "pw1", id, salt);
      var db1 := created.1;
      var signedIn := SignIn.SignInPost(kdf, db1, NoCookie, "alice", "pw1");
      var changed := ChangeSettings.ChangeSettingsPost(db1, signedIn.1, "Displayname", "Alice A.");
      && created.0
      && created.2.id == Some(id)
      && AuthService.Authenticate(kdf, db1, "alice", "pw1") == Some(created.2)
      && AuthService.Authenticate(kdf, db1, "alice@x.com", "pw1") == Some(created.2)
      && SignIn.SignInPost(kdf, db1, NoCookie, "alice", "wrong").0 == BadRequest(SignIn.IncorrectCredentials)
      && signedIn.0 == OkSuccess
      && changed.0 == Ok
      && OfType(changed.2.identity.claims, DisplaynameClaimType) == [NewClaim(DisplaynameClaimType, "Alice A.")]
      && OfType(changed.2.identity.claims, NameClaimType) == [NewClaim(NameClaimType, "alice")]
      && changed.1.users[id].username == Some("alice")
      && changed.1.users[id].displayname == Some("Alice A.")
  {
    AliceCreated(kdf, id, salt);
    AliceSignsIn(kdf, id, salt);
    var db1 := AliceDb(kdf, id, salt);
    SignInThenChangeDisplayname(kdf, db1, NoCookie, "alice", "pw1", "Alice A.");
    assert |DisplaynameClaimType| != |NameClaimType|;
  }

  /** The existence checks fail open: while the username count fails, an
      account is created under a username another account already holds. */
  lemma FailOpenAdmitsDuplicate(kdf: Kdf, db: Db, user: User, password: string, freshId: Guid, salt: Salt, other: Guid)
    requires CountUsername in db.faults
    requires InsertUser !in db.faults && WriteHash !in db.faults
    requires UserService.IsEmailAvailable(db, user.email.GetOr(""))
    requires user.id.None? && freshId !in db.users
    requires other in db.users && user.username.Some? && db.users[other].username == user.username
    ensures UserService.CreateUser(kdf, db, user, password, freshId, salt).0
    ensures !UserService.Unique(UserService.CreateUser(kdf, db, user, password, freshId, salt).1.users, UsernameField)
  {
    var r := UserService.CreateUser(kdf, db, user, password, freshId, salt);
    assert r.2.id == Some(freshId);
    assert other in r.1.users && other != freshId;
    assert Column(r.1.users[freshId], UsernameField) == Column(r.1.users[other], UsernameField);
  }
}

=== FILE: session.dfy ===
/** The session side of ASP.NET Core as the two controllers use it: claims,
    the claims identity carried by the authentication cookie, and the
    responses the endpoints return. */
module Session {
  import opened Base

  /** ClaimTypes.Email */
  const EmailClaimType := "http://schemas.xmlsoap.org/ws/2005/05/identity/claims/emailaddress"
  /** ClaimTypes.Name */
  const NameClaimType := "http://schemas.xmlsoap.org/ws/2005/05/identity/claims/name"
  /** The application's own claim types. */
  const GuidClaimType := "Guid"
  const DisplaynameClaimType := "Displayname"
  /** CookieAuthenticationDefaults.AuthenticationScheme, also the default scheme. */
  const CookieScheme := "Cookies"
  /** The defaults `new Claim(type, value)` fills in. */
  const StringValueType := "http://www.w3.org/2001/XMLSchema#string"
  const LocalAuthority := "LOCAL AUTHORITY"

  datatype Claim = Claim(claimType: string, value: string, valueType: string, issuer: string, originalIssuer: string)

  /** new Claim(type, value) */
  function NewClaim(claimType: string, value: string): Claim {
    Claim(claimType, value, StringValueType, LocalAuthority, LocalAuthority)
  }

  datatype Identity = Identity(claims: seq<Claim>, authenticationType: Option<string>)

  /** The principal of a request without a valid authentication cookie. */
  const Anonymous := Identity([], None)

  /** The authentication cookie: absent, or a signed-in identity under a scheme. */
  datatype Cookie = NoCookie | AuthCookie(scheme: string, identity: Identity)

  /** HttpContext.User for a request that carries this cookie. */
  function RequestIdentity(c: Cookie): Identity {
    match c
    case NoCookie => Anonymous
    case AuthCookie(_, identity) => identity
  }

  /** The endpoint results the core produces. */
  datatype Response =
    | Ok                           // Ok()
    | OkSuccess                    // Ok(new { Success = true })
    | BadRequest(message: string)
    | Unauthorized(message: string)
    | InternalError(message: string)
    | CaughtException              // 500 quoting the message of a caught exception

  function StatusCode(r: Response): int {
    match r
    case Ok => 200
    case OkSuccess => 200
    case BadRequest(_) => 400
    case Unauthorized(_) => 401
    case InternalError(_) => 500
    case CaughtException => 500
  }

  /** ClaimsPrincipal.FindFirst(type): the first claim whose type equals
      `claimType` ignoring case. */
  function FindFirst(claims: seq<Claim>, claimType: string): (c: Option<Claim>)
    ensures c.None? <==> forall i :: 0 <= i < |claims| ==> !EqualsIgnoreCase(claims[i].claimType, claimType)
    ensures c.Some? ==> exists i ::
      && 0 <= i < |claims|
      && claims[i] == c.value
      && EqualsIgnoreCase(claims[i].claimType, claimType)
      && forall j :: 0 <= j < i ==> !EqualsIgnoreCase(claims[j].claimType, claimType)
  {
    if |claims| == 0 then None
    else if EqualsIgnoreCase(claims[0].claimType, claimType) then
      Some(claims[0])
    else
      var rest := FindFirst(claims[1..], claimType);
      assert forall i :: 1 <= i < |claims| ==> claims[i] == claims[1..][i - 1];
      if rest.Some? then
        var k :| 0 <= k < |claims[1..]| && claims[1..][k] == rest.value
          && EqualsIgnoreCase(claims[1..][k].claimType, claimType)
          && forall j :: 0 <= j < k ==> !EqualsIgnoreCase(claims[1..][j].claimType, claimType);
        assert claims[k + 1] == rest.value;
        assert forall j :: 1 <= j < k + 1 ==> claims[j] == claims[1..][j - 1];
        rest
      else
        rest
  }

  /** `a` is `b` with some elements left out, the rest in their order. */
  predicate SubseqOf(a: seq<Claim>, b: seq<Claim>)
    decreases |b|
  {
    |a| == 0 || (|b| > 0 && if a[0] == b[0] then SubseqOf(a[1..], b[1..]) else SubseqOf(a, b[1..]))
  }

  /** `Claims.Where(c => c.Type != claimType)`: ordinal, case-sensitive. The
      result holds exactly the claims of other types, one for each such
      position; `WithoutKeepsOrder` and `FilterDetermined` add that it keeps
      their order, which makes it the only such list. */
  function Without(claims: seq<Claim>, claimType: string): (r: seq<Claim>)
    ensures forall c :: c in r <==> c in claims && c.claimType != claimType
    ensures |r| == |claims| - |OfType(claims, claimType)|
  {
    if |claims| == 0 then []
    else if claims[0].claimType == claimType then Without(claims[1..], claimType)
    else [claims[0]] + Without(claims[1..], claimType)
  }

  /** The claims of exactly one type, in order: how the model observes one
      field of a claim list. */
  function OfType(claims: seq<Claim>, claimType: string): (r: seq<Claim>)
    ensures forall c :: c in r <==> c in claims && c.claimType == claimType
  {
    if |claims| == 0 then []
    else if claims[0].claimType == claimType then [claims[0]] + OfType(claims[1..], claimType)
    else OfType(claims[1..], claimType)
  }

  lemma {:induction false} WithoutAppend(a: seq<Claim>, b: seq<Claim>, t: string)
    ensures Without(a + b, t) == Without(a, t) + Without(b, t)
    decreases |a|
  {
    if |a| == 0 {
      assert a + b == b;
    } else {
      assert (a + b)[1..] == a[1..] + b;
      WithoutAppend(a[1..], b, t);
    }
  }

  /** A subsequence is no longer than the list it is taken from. */
  lemma {:induction false} SubseqShorter(a: seq<Claim>, b: seq<Claim>)
    requires SubseqOf(a, b)
    ensures |a| <= |b|
    decreases |b|
  {
    if |a| > 0 {
      if a[0] == b[0] {
        SubseqShorter(a[1..], b[1..]);
      } else {
        SubseqShorter(a, b[1..]);
      }
    }
  }

  /** A subsequence as long as its list is the list. */
  lemma {:induction false} SubseqSameLength(a: seq<Claim>, b: seq<Claim>)
    requires SubseqOf(a, b) && |a| == |b|
    ensures a == b
    decreases |b|
  {
    if |a| > 0 {
      if a[0] == b[0] {
        SubseqSameLength(a[1..], b[1..]);
        assert a == [a[0]] + a[1..] && b == [b[0]] + b[1..];
      } else {
        SubseqShorter(a, b[1..]);
      }
    }
  }

  /** The filter keeps the surviving claims in their original order. */
  lemma {:induction false} WithoutKeepsOrder(claims: seq<Claim>, t: string)
    ensures SubseqOf(Without(claims, t), claims)
    decreases |claims|
  {
    if |claims| > 0 {
      WithoutKeepsOrder(claims[1..], t);
      var rest := Without(claims[1..], t);
      if claims[0].claimType == t {
        if |rest| > 0 {
          assert rest[0] in rest;
          assert rest[0] != claims[0];
        }
      } else {
        var r := [claims[0]] + rest;
        assert r[1..] == rest;
      }
    }
  }

  /** Any order-keeping selection from `claims` that avoids type `t` is a
      subsequence of the filtered list. */
  lemma {:induction false} SubseqOfWithout(r: seq<Claim>, claims: seq<Claim>, t: string)
    requires SubseqOf(r, claims)
    requires forall i :: 0 <= i < |r| ==> r[i].claimType != t
    ensures SubseqOf(r, Without(claims, t))
    decreases |claims|
  {
    if |r| > 0 {
      var w := Without(claims[1..], t);
      if r[0] == claims[0] {
        SubseqOfWithout(r[1..], claims[1..], t);
        var full := [claims[0]] + w;
        assert full[1..] == w;
      } else {
        SubseqOfWithout(r, claims[1..], t);
        if claims[0].claimType != t {
          var full := [claims[0]] + w;
          assert full[1..] == w;
        }
      }
    }
  }

  /** The filter is determined by what it promises: a list taken from
      `claims` in order, holding no claim of type `t`, and as long as the
      number of other claims, is `Without(claims, t)`. */
  lemma FilterDetermined(r: seq<Claim>, claims: seq<Claim>, t: string)
    requires SubseqOf(r, claims)
    requires forall i :: 0 <= i < |r| ==> r[i].claimType != t
    requires |r| == |claims| - |OfType(claims, t)|
    ensures r == Without(claims, t)
  {
    SubseqOfWithout(r, claims, t);
    SubseqSameLength(r, Without(claims, t));
  }

  lemma {:induction false} OfTypeAppend(a: seq<Claim>, b: seq<Claim>, t: string)
    ensures OfType(a + b, t) == OfType(a, t) + OfType(b, t)
    decreases |a|
  {
    if |a| == 0 {
      assert a + b == b;
    } else {
      assert (a + b)[1..] == a[1..] + b;
      OfTypeAppend(a[1..], b, t);
    }
  }

  /** Filtering a list that holds no claim of the type changes nothing. */
  lemma {:induction false} WithoutAbsent(claims: seq<Claim>, t: string)
    requires forall i :: 0 <= i < |claims| ==> claims[i].claimType != t
    ensures Without(claims, t) == claims
    decreases |claims|
  {
    if |claims| > 0 {
      WithoutAbsent(claims[1..], t);
    }
  }

  /** Removing one type leaves every other type's claims as they were, in order. */
  lemma {:induction false} OfTypeWithout(claims: seq<Claim>, t: string, u: string)
    ensures OfType(Without(claims, t), u) == if u == t then [] else OfType(claims, u)
    decreases |claims|
  {
    if |claims| > 0 {
      OfTypeWithout(claims[1..], t, u);
      if claims[0].claimType != t {
        assert Without(claims, t) == [claims[0]] + Without(claims[1..], t);
        OfTypeAppend([claims[0]], Without(claims[1..], t), u);
      }
    }
  }

  /** Removing claims whose type differs (even ignoring case) from the one
      looked up does not change what FindFirst finds. */
  lemma {:induction false} FindFirstWithout(claims: seq<Claim>, t: string, g: string)
    requires !EqualsIgnoreCase(t, g)
    ensures FindFirst(Without(claims, t), g) == FindFirst(claims, g)
    decreases |claims|
  {
    if |claims| > 0 {
      FindFirstWithout(claims[1..], t, g);
      if claims[0].claimType != t {
        var w := Without(claims, t);
        assert w == [claims[0]] + Without(claims[1..], t);
        assert w[1..] == Without(claims[1..], t);
      }
    }
  }

  /** Appending a claim after the first match does not change the match. */
  lemma {:induction false} FindFirstAppend(claims: seq<Claim>, c: Claim, g: string)
    requires FindFirst(claims, g).Some? || !EqualsIgnoreCase(c.claimType, g)
    ensures FindFirst(claims + [c], g) == FindFirst(claims, g)
    decreases |claims|
  {
    if |claims| == 0 {
    } else {
      assert (claims + [c])[1..] == claims[1..] + [c];
      if !EqualsIgnoreCase(claims[0].claimType, g) {
        FindFirstAppend(claims[1..], c, g);
      }
    }
  }

  /** The claim list rebuilt by a settings change: every claim of
      `claimType` dropped, the rest kept in order, one new claim appended. */
  function Rotate(claims: seq<Claim>, claimType: string, value: string): (r: seq<Claim>)
    ensures |r| > 0 && r[|r| - 1] == NewClaim(claimType, value)
    ensures r[..|r| - 1] == Without(claims, claimType)
    ensures SubseqOf(r[..|r| - 1], claims)
    ensures OfType(r, claimType) == [NewClaim(claimType, value)]
    ensures forall u :: u != claimType ==> OfType(r, u) == OfType(claims, u)
    ensures forall c :: c in r && c.claimType != claimType ==> c in claims
  {
    var kept := Without(claims, claimType);
    var added := NewClaim(claimType, value);
    WithoutKeepsOrder(claims, claimType);
    assert (kept + [added])[..|kept|] == kept;
    OfTypeWithout(claims, claimType, claimType);
    OfTypeAppend(kept, [added], claimType);
    forall u | u != claimType
      ensures OfType(kept + [added], u) == OfType(claims, u)
    {
      OfTypeWithout(claims, claimType, u);
      OfTypeAppend(kept, [added], u);
    }
    kept + [added]
  }

  /** Rotating twice with the same type and value is rotating once. */
  lemma RotateIdempotent(claims: seq<Claim>, t: string, v: string)
    ensures Rotate(Rotate(claims, t, v), t, v) == Rotate(claims, t, v)
  {
    RotateLastWins(claims, t, v, v);
  }

  /** A later rotation of the same type replaces an earlier one entirely. */
  lemma RotateLastWins(claims: seq<Claim>, t: string, v1: string, v2: string)
    ensures Rotate(Rotate(claims, t, v1), t, v2) == Rotate(claims, t, v2)
  {
    var kept := Without(claims, t);
    WithoutAppend(kept, [NewClaim(t, v1)], t);
    WithoutAbsent(kept, t);
    assert Without([NewClaim(t, v1)], t) == [];
  }

  /** Rotations of two different types, applied in either order, agree on
      every claim type (the lists differ only in where the two new claims sit). */
  lemma RotateCommutesPerType(claims: seq<Claim>, t1: string, v1: string, t2: string, v2: string, u: string)
    requires t1 != t2
    ensures OfType(Rotate(Rotate(claims, t1, v1), t2, v2), u) == OfType(Rotate(Rotate(claims, t2, v2), t1, v1), u)
  {
  }

  /** A rotation of a type that is not "Guid" (in any case) keeps the claim
      that identifies the user. */
  lemma RotateKeepsFindFirst(claims: seq<Claim>, t: string, v: string, g: string)
    requires !EqualsIgnoreCase(t, g)
    ensures FindFirst(Rotate(claims, t, v), g) == FindFirst(claims, g)
  {
    FindFirstWithout(claims, t, g);
    FindFirstAppend(Without(claims, t), NewClaim(t, v), g);
  }
}

=== FILE: sign_in.dfy ===
/** AuthController: sign-in issues the three-claim cookie identity, sign-out
    removes the cookie. */
module SignIn {
  import opened Base
  import opened Guids
  import opened Models
  import opened AccountStore
  import opened PasswordBlob
  import opened Session
  import AuthService

  const IncorrectCredentials := "Incorrect credentials."

  /** The claims SignInPost builds for a user with an id. */
  function IssueClaims(user: User): (claims: seq<Claim>)
    requires user.id.Some?
  {
    [ NewClaim(EmailClaimType, user.email.GetOr("")),
      NewClaim(NameClaimType, user.username.GetOr("")),
      NewClaim(GuidClaimType, Format(user.id.value)) ]
  }

  /** SignInPost: authenticate; on any failure the one "Incorrect
      credentials." answer and no cookie change; on success a cookie-scheme
      identity whose claims name the user's email, username and id. */
  function SignInPost(kdf: Kdf, db: Db, cookie: Cookie, account: string, password: string): (r: (Response, Cookie))
    ensures r.0 == OkSuccess <==> AuthService.Authenticate(kdf, db, account, password).Some?
    ensures r.0 != OkSuccess ==> r == (BadRequest(IncorrectCredentials), cookie)
    ensures r.0 == OkSuccess ==>
      var user := AuthService.Authenticate(kdf, db, account, password).value;
      && r.1 == AuthCookie(CookieScheme, Identity(IssueClaims(user), Some(CookieScheme)))
      && FindFirst(r.1.identity.claims, GuidClaimType).Some?
      && Parse(FindFirst(r.1.identity.claims, GuidClaimType).value.value) == user.id
      && OfType(r.1.identity.claims, NameClaimType) == [NewClaim(NameClaimType, user.username.GetOr(""))]
      && OfType(r.1.identity.claims, EmailClaimType) == [NewClaim(EmailClaimType, user.email.GetOr(""))]
      && OfType(r.1.identity.claims, GuidClaimType) == [NewClaim(GuidClaimType, Format(user.id.value))]
  {
    var user := AuthService.Authenticate(kdf, db, account, password);
    if user.None? || user.value.id.None? then
      (BadRequest(IncorrectCredentials), cookie)
    else
      var claims := IssueClaims(user.value);
      assert !EqualsIgnoreCase(claims[0].claimType, GuidClaimType);
      assert !EqualsIgnoreCase(claims[1].claimType, GuidClaimType);
      assert EqualsIgnoreCase(claims[2].claimType, GuidClaimType);
      assert claims[1..][1..] == [claims[2]];
      assert [claims[2]][1..] == [];
      assert FindFirst(claims, GuidClaimType) == Some(claims[2]);
      assert |EmailClaimType| != |NameClaimType| && |EmailClaimType| != |GuidClaimType| && |NameClaimType| != |GuidClaimType|;
      IssuedOfType(user.value, NameClaimType);
      IssuedOfType(user.value, EmailClaimType);
      IssuedOfType(user.value, GuidClaimType);
      ParseFormat(user.value.id.value);
      (OkSuccess, AuthCookie(CookieScheme, Identity(claims, Some(CookieScheme))))
  }

  /** The issued claims of one type, listed by where they sit. */
  lemma IssuedOfType(user: User, t: string)
    requires user.id.Some?
    ensures var c := IssueClaims(user);
      OfType(c, t) == OfType([c[0]], t) + OfType([c[1]], t) + OfType([c[2]], t)
  {
    var c := IssueClaims(user);
    assert c == [c[0]] + [c[1]] + [c[2]];
    OfTypeAppend([c[0]] + [c[1]], [c[2]], t);
    OfTypeAppend([c[0]], [c[1]], t);
  }

  /** "No such account" and "wrong password" give the same response. */
  lemma FailuresLookAlike(kdf: Kdf, db: Db, cookie: Cookie, unknown: string, known: string, password: string, wrong: string)
    requires AuthService.LookupAccount(db, unknown).None?
    requires AuthService.LookupAccount(db, known).Some?
    requires !AuthService.CheckPassword(kdf, db, AuthService.LookupAccount(db, known).value.id.value, wrong)
    ensures SignInPost(kdf, db, cookie, unknown, password).0 == SignInPost(kdf, db, cookie, known, wrong).0
    ensures SignInPost(kdf, db, cookie, unknown, password).0 == BadRequest(IncorrectCredentials)
  {
  }

  /** SignOutPost: sign out of the cookie scheme, whatever the state. */
  function SignOutPost(cookie: Cookie): (r: (Response, Cookie))
    ensures r.0 == Ok && StatusCode(r.0) == 200
    ensures RequestIdentity(r.1) == Anonymous
    ensures FindFirst(RequestIdentity(r.1).claims, GuidClaimType).None?
  {
    (Ok, NoCookie)
  }
}

=== FILE: user_service.dfy ===
/** UserService: availability checks, the settings update behind a profile
    change, and account creation. Uniqueness of usernames and emails is
    checked before writing, with no transaction around check and write. */
module UserService {
  import opened Base
  import opened Guids
  import opened Models
  import opened AccountStore
  import opened PasswordBlob
  import AuthService

  /** No two accounts hold the same non-null value in column `f`. */
  predicate Unique(users: map<Guid, Row>, f: Field) {
    forall a, b :: a in users && b in users && a != b && Column(users[a], f).Some? ==>
      Column(users[a], f) != Column(users[b], f)
  }

  /** IsUsernameAvailableAsync: true when no account holds the username, and
      also when the existence check fails (it answers false). */
  function IsUsernameAvailable(db: Db, username: string): (available: bool)
    ensures available <==>
      CountUsername in db.faults || forall id :: id in db.users ==> db.users[id].username != Some(username)
  {
    !UsernameExists(db, username)
  }

  /** IsEmailAvailableAsync, the same for the email column. */
  function IsEmailAvailable(db: Db, email: string): (available: bool)
    ensures available <==>
      CountEmail in db.faults || forall id :: id in db.users ==> db.users[id].email != Some(email)
  {
    !EmailExists(db, email)
  }

  /** UpdateUserSettingAsync: validate the setting type, check availability
      for a username or email, then write through the store. Every failure
      leaves the store as it was. */
  function UpdateUserSetting(db: Db, id: Guid, settingType: string, value: string): (r: (bool, Db))
    ensures ParseSetting(settingType).None? ==> r == (false, db)
    ensures settingType == "Username" && UsernameExists(db, value) ==> r == (false, db)
    ensures settingType == "Email" && EmailExists(db, value) ==> r == (false, db)
    ensures settingType == "Displayname" ==> r == AccountStore.UpdateUserSetting(db, id, settingType, value)
    ensures !r.0 ==> r.1 == db
    ensures r.0 ==> r == AccountStore.UpdateUserSetting(db, id, settingType, value)
    ensures
      (&& (settingType == "Username" ==> !UsernameExists(db, value))
       && (settingType == "Email" ==> !EmailExists(db, value))) ==>
      r == AccountStore.UpdateUserSetting(db, id, settingType, value)
    ensures r.0 <==>
      && ParseSetting(settingType).Some?
      && (settingType == "Username" ==> !UsernameExists(db, value))
      && (settingType == "Email" ==> !EmailExists(db, value))
      && UpdateSetting !in db.faults
    ensures r.0 && settingType == "Username" ==>
      CountUsername in db.faults || forall other :: other in db.users ==> db.users[other].username != Some(value)
    ensures r.0 && settingType == "Email" ==>
      CountEmail in db.faults || forall other :: other in db.users ==> db.users[other].email != Some(value)
  {
    if ParseSetting(settingType).None? then (false, db)
    else if settingType == "Username" && !IsUsernameAvailable(db, value) then (false, db)
    else if settingType == "Email" && !IsEmailAvailable(db, value) then (false, db)
    else AccountStore.UpdateUserSetting(db, id, settingType, value)
  }

  /** The availability check does not exempt the requester: "changing" a
      username to the one the user already holds is refused. */
  lemma KeepingOwnUsernameRefused(db: Db, id: Guid, value: string)
    requires id in db.users && db.users[id].username == Some(value)
    requires CountUsername !in db.faults
    ensures UpdateUserSetting(db, id, "Username", value) == (false, db)
  {
    assert UsernameExists(db, value);
  }

  /** The same for the email column. */
  lemma KeepingOwnEmailRefused(db: Db, id: Guid, value: string)
    requires id in db.users && db.users[id].email == Some(value)
    requires CountEmail !in db.faults
    ensures UpdateUserSetting(db, id, "Email", value) == (false, db)
  {
    assert EmailExists(db, value);
  }

  /** A username or email change to a value no account holds, on a working
      store, is written to the user's row. */
  lemma ChangeToFreeValue(db: Db, id: Guid, field: Field, value: string)
    requires field != DisplaynameField
    requires forall other :: other in db.users ==> Column(db.users[other], field) != Some(value)
    requires UpdateSetting !in db.faults
    ensures var settingType := if field == UsernameField then "Username" else "Email";
      var r := UpdateUserSetting(db, id, settingType, value);
      && r.0
      && id in r.1.users
      && Column(r.1.users[id], field) == Some(value)
      && r.1.users - {id} == db.users - {id}
  {
  }

  /** With working existence checks, a settings update keeps usernames and
      emails unique (for one request at a time). */
  lemma {:induction false} UpdateKeepsUnique(db: Db, id: Guid, settingType: string, value: string, f: Field)
    requires f != DisplaynameField && Unique(db.users, f)
    requires CountUsername !in db.faults && CountEmail !in db.faults
    ensures Unique(UpdateUserSetting(db, id, settingType, value).1.users, f)
  {
    var r := UpdateUserSetting(db, id, settingType, value);
    if r.0 {
      var g := ParseSetting(settingType).value;
      var users := r.1.users;
      forall a, b | a in users && b in users && a != b && Column(users[a], f).Some?
        ensures Column(users[a], f) != Column(users[b], f)
      {
        if f == g {
          if a == id {
            assert b in db.users;
          } else if b == id {
            assert a in db.users;
          } else {
            assert a in db.users && b in db.users;
          }
        } else {
          assert Column(users[a], f) == Column(CurrentRow(db, a), f);
          assert Column(users[b], f) == Column(CurrentRow(db, b), f);
        }
      }
    }
  }

  /** The User with a fresh id when it had none (user.Id ??= Guid.NewGuid()). */
  function WithId(user: User, freshId: Guid): (u: User)
    ensures u.id.Some? && u.(id := user.id) == user
    ensures user.id.Some? ==> u == user
    ensures user.id.None? ==> u.id == Some(freshId)
  {
    if user.id.None? then user.(id := Some(freshId)) else user
  }

  /** CreateUserAsync: check username then email availability, give the user
      an id, insert the record, then set the password with `salt`. The third
      component is the caller's User object afterwards (its Id may have been
      assigned). A failed password write does not remove the record. */
  function CreateUser(kdf: Kdf, db: Db, user: User, password: string, freshId: Guid, salt: Salt): (r: (bool, Db, User))
    ensures !IsUsernameAvailable(db, user.username.GetOr("")) ==> r == (false, db, user)
    ensures !IsEmailAvailable(db, user.email.GetOr("")) ==> r == (false, db, user)
    ensures r.2.(id := user.id) == user && (user.id.Some? ==> r.2 == user)
    ensures InsertUser in db.faults ==> !r.0 && r.1 == db
    ensures IsUsernameAvailable(db, user.username.GetOr("")) && IsEmailAvailable(db, user.email.GetOr("")) ==>
      r.2 == WithId(user, freshId)
    ensures r.0 <==>
      && IsUsernameAvailable(db, user.username.GetOr(""))
      && IsEmailAvailable(db, user.email.GetOr(""))
      && InsertUser !in db.faults
      && WriteHash !in db.faults
    ensures r.0 ==>
      && r.2 == WithId(user, freshId)
      && r.2.id.value in r.1.users
      && ToUser(r.2.id.value, r.1.users[r.2.id.value]) == r.2
      && r.1.users - {r.2.id.value} == db.users - {r.2.id.value}
      && r.1.credentials.Keys == db.credentials.Keys + {r.2.id.value}
      && r.1.credentials - {r.2.id.value} == db.credentials - {r.2.id.value}
      && r.1.credentials[r.2.id.value].Base64?
      && Matches(kdf, password, r.1.credentials[r.2.id.value].bytes)
      && r.1.credentials[r.2.id.value] == Base64(MakeBlob(kdf, password, salt))
      && r.1.verification == db.verification
      && r.1.faults == db.faults
    ensures
      (&& IsUsernameAvailable(db, user.username.GetOr(""))
       && IsEmailAvailable(db, user.email.GetOr(""))
       && InsertUser !in db.faults
       && WriteHash in db.faults) ==>
      && !r.0
      && r.2 == WithId(user, freshId)
      && r.2.id.value in r.1.users
      && ToUser(r.2.id.value, r.1.users[r.2.id.value]) == r.2
      && r.1 == db.(users := db.users[r.2.id.value := RowOf(r.2)])
  {
    if !IsUsernameAvailable(db, user.username.GetOr("")) then (false, db, user)
    else if !IsEmailAvailable(db, user.email.GetOr("")) then (false, db, user)
    else
      var u := WithId(user, freshId);
      var created := AccountStore.CreateUser(db, u);
      if !created.0 then (false, created.1, u)
      else
        var passwordSet := AuthService.SetPassword(kdf, created.1, u.id.value, password, salt);
        (passwordSet.0, passwordSet.1, u)
  }

  /** A created account can sign in with its username and password, provided
      the reads work and the username has no '@'. */
  lemma CreatedUserSignsIn(kdf: Kdf, db: Db, user: User, password: string, freshId: Guid, salt: Salt, name: string)
    requires CreateUser(kdf, db, user, password, freshId, salt).0
    requires user.username == Some(name) && '@' !in name
    requires CountUsername !in db.faults && ReadUserByUsername !in db.faults && ReadHash !in db.faults
    ensures AuthService.Authenticate(kdf, CreateUser(kdf, db, user, password, freshId, salt).1, name, password)
         == Some(CreateUser(kdf, db, user, password, freshId, salt).2)
  {
    var r := CreateUser(kdf, db, user, password, freshId, salt);
    var id := r.2.id.value;
    assert Holders(r.1.users, UsernameField, name) == {id} by {
      forall x | x in Holders(r.1.users, UsernameField, name) ensures x == id {
        assert x == id || x in db.users;
      }
    }
    AuthService.AuthenticateByUsername(kdf, r.1, id, name, password);
  }

  /** With working existence checks, account creation keeps usernames and
      emails unique. */
  lemma {:induction false} CreateKeepsUnique(kdf: Kdf, db: Db, user: User, password: string, freshId: Guid, salt: Salt, f: Field)
    requires f != DisplaynameField && Unique(db.users, f)
    requires CountUsername !in db.faults && CountEmail !in db.faults
    ensures Unique(CreateUser(kdf, db, user, password, freshId, salt).1.users, f)
  {
    var r := CreateUser(kdf, db, user, password, freshId, salt);
    if IsUsernameAvailable(db, user.username.GetOr("")) && IsEmailAvailable(db, user.email.GetOr(""))
      && InsertUser !in db.faults
    {
      var id := r.2.id.value;
      var users := r.1.users;
      assert users == db.users[id := RowOf(r.2)];
      forall a, b | a in users && b in users && a != b && Column(users[a], f).Some?
        ensures Column(users[a], f) != Column(users[b], f)
      {
        if a == id {
          assert b in db.users;
        } else if b == id {
          assert a in db.users;
        } else {
          assert a in db.users && b in db.users;
        }
      }
    }
  }
}
